=== FILE: README.md ===
# react-multi-date-picker: header navigation and value handling, in Dafny

This project models the two pieces of plain logic inside the React date
picker. Everything else in the picker is rendering, DOM handling, or calls
into `react-date-object` and `react-element-popper`.

* **The calendar header** (`Header`). It computes the month name and the
  localized year of each displayed month. It pages the cursor date with the
  arrows, subject to `minDate`/`maxDate`. It opens and closes the month and
  year pickers.
* **The date picker** (`DatePicker`). It turns the `value` prop into the
  picker's date and input text: the effect that watches `value`, and
  `getStringDate`. It handles typed text (`handleValueChange`) and committed
  dates (`handleChange`). It also covers the OK/CANCEL labels (`toLocale`),
  the default date picked by `openCalendar`, and the input's `inputMode`.

Supporting modules:

* `DateObjects` has the part of the library's `DateObject` that this code
  touches: year, month index 0..11, day, validity, digit table and month
  names. It also has the assumed month arithmetic.
* `Digits` writes a year with the locale's digits and converts typed
  text back to ASCII digits.
* `Strings` gives JavaScript's global replace, `toString` of integers, and
  `filter(Boolean).join(sep)`.

The library's `format`, `parse`, comparison, `checkDate` conversion,
`toLocaleDigits` and `getLocaleName` are not visible. They are fields of a
`Library` record that the date-picker functions take as a parameter. The
mobile flag, the focus of the input, the current moment, the presence of
an input element, and the answers of `onOpen`/`onClose` are parameters too.

**Assumption about the library.** `date.month += v` normalizes an index
past December or before January by carrying whole years: `AddMonths`
keeps `year * 12 + monthIndex` moving by exactly `v`. Likewise
`date.year = year` (header.js:83 and 97) is taken to change the year and
nothing else. How the library treats a day the target month or year lacks
(29 February after a step to a non-leap year, or the 30th of Esfand in the
Persian calendar) is not modelled: the day is kept as it is. A DateObject's
`digits` is taken to hold ten strings. The round-trip lemmas also ask for
a digit table (`Digits.DigitTable`): the ten strings are distinct and one
character long, and none of them is the ASCII digit of a smaller position,
so a digit already converted to ASCII is never converted again.

**Dead branch in the value effect.** The effect's single-value
branch (date_picker.js:187-195) starts with `if (isArray(date)) date =
getLastDate()`. That line cannot run: the branch is only taken when
`range || multiple || isArray(date)` is false. So an array value never
becomes its last element. It always takes the list branch and stays a
list. The model follows the code, and `DatePicker.SingleModeShape` states
the consequence.

## Model

| member | source | states |
|---|---|---|
| Header.Labels | src/components/header/header.js:14-40 | the label loop emits exactly `numberOfMonths` month names and years in offset order; it fails (the source throws) exactly when, without custom names, some label's month index is past the month list |
| Header.LabelIsOffsetMonth | src/components/header/header.js:18-26 | for offsets up to 12 the label index stays in 0..11, the year is carried exactly when the raw index passes 11, and the label names the month `offset` months after the cursor |
| Header.LabelsDefinedIff | src/components/header/header.js:28-34 | with a 12-name month list the loop completes iff custom names (an array of at least 12) are used, or start index + month count is at most 24 |
| Header.YearLabelReadsBack | src/components/header/header.js:36 | the localized year text, converted back by the typed-input digit loop, is the decimal year, and parses to the year when non-negative |
| Digits.LocalizeDigits | src/components/header/header.js:36 | a single ASCII digit d becomes `digits[d]` and any other single character stays; with one-character digits, each position is mapped that way and the length is kept |
| Digits.LocalizeDigitsAppend | src/components/header/header.js:36 | localization distributes over concatenation for digit strings of any length, so with the single-character case it is the character-by-character replacement |
| Strings.IntToDecimal | src/components/header/header.js:36 | `year.toString()` has a leading minus exactly for negative years, digits elsewhere, no leading zero, and its digits read back as the year's magnitude |
| Strings.DecimalRoundTrip | src/components/header/header.js:36 | parsing undoes decimal rendering: the decimal text of any natural parses back to it |
| DateObjects.AddMonths | src/components/header/header.js:85 | (assumed library behaviour) moving by v months moves the absolute month position by exactly v and changes nothing but year and month |
| DateObjects.ToFirstOfMonth | src/components/header/header.js:80 | the cursor is set to day 1 and nothing else changes |
| Header.IncreaseValue | src/components/header/header.js:73-108 | a page is refused (no `onChange`) exactly when the month-mode guards (at or past the bound's year with the bound's month number beyond `month.number + value`) or the year-picker guards (bound year beyond `year + value`) apply; otherwise it changes only the cursor and reports `selectedDate` only with `onlyMonthPicker`; month mode lands on day 1, moved by `value` years (`onlyMonthPicker`) or `value` months with every other field of the cursor kept; year mode changes only the year and respects the bound in the direction of travel |
| Header.MonthPagingKeepsBounds | src/components/header/header.js:76-86 | from a cursor within the bounds, a one-month page is refused iff the cursor is on the bound's month in that direction, and otherwise stays within the bounds |
| Header.YearPagingKeepsBounds | src/components/header/header.js:88-98 | from a cursor within the bound years, a year page is refused iff on the bound year, else lands on year ± 12 clamped to the bound, within the bound years |
| Header.OnlyMonthPickerLeavesYearBounds | src/components/header/header.js:76-83 | with `onlyMonthPicker`, a cursor in July of the minimum's year (minimum in June) is paged to the previous year, below the minimum's year |
| Header.IncreaseValueIntended | src/components/header/header.js:76-86 | the intended paging agrees with the source everywhere except month mode with `onlyMonthPicker` |
| Header.IntendedKeepsYearBounds | src/components/header/header.js:76-86 | with year guards, `onlyMonthPicker` paging is refused iff it would leave the bound years, and otherwise moves the year by `value` on day 1 |
| Header.Toggle | src/components/header/header.js:110-122 | the chosen picker flag is negated, the other is closed, both are never open, and every other state field is unchanged |
| Header.ToggleTwice | src/components/header/header.js:110-121 | toggling the same picker twice restores the state when the other picker was closed |
| Header.ToggleAllExclusive | src/components/header/header.js:110-121 | after any non-empty series of toggles the two pickers are never both open and no other field changed |
| DatePicker.Separator | src/components/date_picker/date_picker.js:83 | the separator is " ~ " iff `range` or `weekPicker`, ", " otherwise |
| DatePicker.StringDates | src/components/date_picker/date_picker.js:536-548 | one string per date in order: the formatted date when valid, "" otherwise |
| DatePicker.GetStringDate | src/components/date_picker/date_picker.js:536-547 | a single or missing date becomes a one-entry list (`[].concat`); a list gives, entry for entry and in order, the string of each of its dates |
| DatePicker.ListTextEmptyIff | src/components/date_picker/date_picker.js:539-541 | the joined text of a date list is empty iff no date renders to a non-empty string |
| DatePicker.RangeText | src/components/date_picker/date_picker.js:539-541 | a range of two rendering dates is shown as "first ~ last" |
| Strings.NonEmpty | src/components/date_picker/date_picker.js:540 | `filter(Boolean)` leaves only non-empty entries, never more than it was given, the whole list when no entry is "", and nothing iff every entry is "" |
| Strings.JoinLength | src/components/date_picker/date_picker.js:540 | a join is as long as its pieces plus one separator between neighbours |
| Strings.JoinNonEmptyIsEmptyIff | src/components/date_picker/date_picker.js:540 | the joined text is empty iff every part is empty |
| Strings.JoinIgnoresEmpty | src/components/date_picker/date_picker.js:540 | inserting an empty string anywhere leaves the joined text unchanged |
| DatePicker.DateString | src/components/date_picker/date_picker.js:545-547 | a valid date renders as its `format()`, an invalid one as "" |
| DatePicker.Shown | src/components/date_picker/date_picker.js:539-541 | a plain text is shown as is; a list is shown as its non-empty entries joined by the separator, so it is empty exactly when every entry is empty |
| DatePicker.EffectiveValue | src/components/date_picker/date_picker.js:173-177 | a truthy value is used as is; a falsy value with no remembered initial value and a committed date takes that date, and in no other case is the value replaced |
| DatePicker.InitialAfter | src/components/date_picker/date_picker.js:175-176 | the remembered initial value is kept while the value is truthy and forgotten (falsy) once the value is falsy |
| DatePicker.PresentDates | src/components/date_picker/date_picker.js:182 | falsy entries are dropped: at most as many dates, one prepared date per entry when all are present, empty iff all are absent |
| DatePicker.PresentDatesIgnoresNone | src/components/date_picker/date_picker.js:182 | an absent entry inserted anywhere leaves the present dates unchanged; with the all-present clause this fixes the result as the prepared present entries in order |
| DatePicker.KeepForRange | src/components/date_picker/date_picker.js:184 | a range longer than two keeps exactly two dates, the first and the last; otherwise the list is unchanged |
| DatePicker.SyncValue | src/components/date_picker/date_picker.js:149-204 | the value effect: list mode for range/multiple/array values (a range holds at most two dates), its text is the joined date strings; single mode shows `format()` or "" unless the input has focus; clearing the value, with no committed date to fall back on, clears the picker (no date, or an empty list in range/multiple mode) and its text; the remembered initial value is kept until the value goes falsy |
| DatePicker.SyncIgnoresFalsyEntry | src/components/date_picker/date_picker.js:179-186 | a falsy entry inserted anywhere into an array value changes neither the picker's dates nor its text |
| DatePicker.SyncWrapsScalar | src/components/date_picker/date_picker.js:180 | in range or multiple mode a single value is wrapped into a one-date list |
| DatePicker.SyncMapsArray | src/components/date_picker/date_picker.js:182-184 | an array without falsy entries maps one for one and in order; a range longer than 2 keeps `[first, last]` |
| DatePicker.SyncDropsFalsy | src/components/date_picker/date_picker.js:182 | an array of falsy entries gives the empty list and empty text |
| DatePicker.SyncKeepsLastDate | src/components/date_picker/date_picker.js:173-186 | in every mode, a falsy value with no remembered initial value keeps the last committed date, prepared again: a single date stays single (a one-date list in range or multiple mode), a list keeps its dates one for one, and a range longer than two keeps its first and last |
| DatePicker.SingleModeShape | src/components/date_picker/date_picker.js:179-194 | outside range/multiple mode the date is a list iff the effective value is an array; so the last-element branch is never reached |
| DatePicker.HandleChange | src/components/date_picker/date_picker.js:469-479 | on mobile without `force` only the temporary date changes and `onChange` is not called; otherwise the date and ref are committed, `onChange` gets the date, and a present date's text is shown |
| DatePicker.MobileConfirmCommits | src/components/date_picker/date_picker.js:397-401 | on mobile a click only parks the date; the OK button then commits a parked date and reports it to `onChange`, and commits nothing when the parked date is null |
| DatePicker.ConfirmMobile | src/components/date_picker/date_picker.js:397-401 | the OK button commits a truthy temporary date through a forced `handleChange` (date, ref, text, `onChange`) and clears it; with no temporary date nothing changes |
| DatePicker.HandleValueChange | src/components/date_picker/date_picker.js:481-507 | no-op for a list date or non-editable picker; empty text shows "" and commits null (on mobile: parks null); other text is converted to ASCII digits and parsed, and the valid parse, else null, is committed and reported, or on mobile only parked as the temporary date; the input then shows the converted text written back with the locale's digits |
| DatePicker.TypedTextReachesParser | src/components/date_picker/date_picker.js:497-505 | every typed `digits[k]` reaches the parser as ASCII digit k, other characters unchanged, and the valid parse (else null) is committed |
| Digits.Transliterate | src/components/date_picker/date_picker.js:499-501 | on a digit table, the replacement loop maps each `digits[k]` to ASCII k and keeps all other characters, preserving length |
| Digits.TransliterateFromIsCharwise | src/components/date_picker/date_picker.js:499-501 | on a digit table, the passes of the loop from position i on act character by character, each character running through the remaining digits in order |
| Digits.LocalizeThenTransliterate | src/components/date_picker/date_picker.js:499-501 | text written with the locale's digits and converted back by the loop is the original text |
| Digits.IndexOf | src/components/date_picker/date_picker.js:500 | `digits.indexOf(digit)` is the first position holding the digit |
| Strings.ReplaceAll | src/components/date_picker/date_picker.js:500 | a global replace of a non-empty pattern by text no longer than it never lengthens the string, by text of its length keeps the length, and replacing a pattern by itself changes nothing |
| Strings.InsertEverywhere | src/components/date_picker/date_picker.js:500 | a global replace of the empty pattern adds `length + 1` copies of the replacement, and inserting "" changes nothing |
| Strings.ReplaceOneChar | src/components/date_picker/date_picker.js:500 | a global replace of one character by one character is a character-wise substitution |
| DatePicker.ToLocale | src/components/date_picker/date_picker.js:423-434 | the label is the table entry for the locale's name; it is the key itself when the locale is missing, its name is not a string, or there is no entry |
| DatePicker.ActionsTable | src/components/date_picker/date_picker.js:426-431 | entries exist exactly for OK/CANCEL in en, fa, ar, hi; all are non-empty; English entries equal the key, others differ from it |
| DatePicker.OpenCalendar | src/components/date_picker/date_picker.js:436-467 | nothing happens when disabled, read-only or vetoed; today is committed only with no value and no date in single desktop mode, and then iff it lies strictly between the bounds, after which the input shows today's text; when nothing is committed only visibility may change; the calendar opens when there is an input or it is hidden, and otherwise closes unless `onClose` vetoes |
| DatePicker.OpenCalendarCommitsOnce | src/components/date_picker/date_picker.js:436-456 | after an open that committed today, a later open commits nothing, so today is committed at most once |
| DatePicker.ForcedInputMode | src/components/date_picker/date_picker.js:251 | `inputMode` is forced to "none" for multiple, range, list dates or a non-editable picker |
| DatePicker.InputMode | src/components/date_picker/date_picker.js:338 | the rendered attribute is "none" when forced, else the non-empty prop, else "none" on mobile and absent elsewhere |
| DatePicker.SyncedListSuppressesKeyboard | src/components/date_picker/date_picker.js:251 | after the value effect in range or multiple mode, or on an array value, the input's `inputMode` is "none" |

## Findings

| source | as written | input that shows it | evidently intended | confidence | as-written member | corrected member |
|---|---|---|---|---|---|---|
| src/components/header/header.js:76-83 | with `onlyMonthPicker` the arrows move the cursor by a year, but the guards compare month numbers as if it moved by a month | `onlyMonthPicker`, cursor July 2019, `minDate` June 2019, left arrow: the cursor goes to 2018, a year wholly before the minimum | compare years when the step is a year: refuse when `date.year + value` leaves the bounds' years | medium, not executed | Header.OnlyMonthPickerLeavesYearBounds | Header.IntendedKeepsYearBounds |

## Left out

- Digits.Transliterate: states the effect of the digit loop only for digit tables (ten distinct one-character digits, none equal to the ASCII digit of a smaller position). For other tables, such as multi-character digit strings, only the loop's definition is given.
- Header.IncreaseValue: models the source's guards as written. The corrected paging with `onlyMonthPicker` is `Header.IncreaseValueIntended`.
- DatePicker.SyncValue: `checkDate`'s conversion and `set(...)` is the opaque `Library.prepare`. The `document.activeElement` test is the `inputFocused` parameter.
- DatePicker.OpenCalendar: bounds are compared through `Library.valueOf`, so a bound given as a string (which JavaScript would compare as NaN) is not modelled. `onPropsChange` is not modelled. `closeCalendar` is reduced to its effect on `isVisible`, gated by `onClose`.
- DatePicker.HandleValueChange: the `if (!digits) return` guard is not modelled, because a DateObject's digits are always a list here. Caret saving (`selectionStart`) is also not modelled. The digit strings are treated as literal patterns, not regular expressions.
- In-place updates are modelled as new values. `increaseValue` changes `state.date` itself (header.js:80, 83, 85 and 97), so the previous state's date object changes too. `checkDate` changes the caller's DateObjects through `setCalendar` and `set` (date_picker.js:159-168). In the model, `Header.IncreaseValue` and `Library.prepare` return new values, so aliasing between old and new states is not modelled.
- The header hides itself when `onlyTimePicker` is set (header.js:43). That is rendering, so the flag is not part of `Header.HeaderState`.
- Strings.ReplaceAll: its contract gives lengths and the identity case only. What is replaced is characterised only for one-character patterns (`Strings.ReplaceOneChar`), which is what the typed-input loop uses on a digit table.
- Strings.InsertEverywhere: its contract gives the length only, not where the copies go (before each character and at the end). Only the typed-input loop reaches it, through an empty digit string, and a digit table has none.
- DatePicker.ConfirmMobile: the `closeCalendar()` that follows the OK and CANCEL buttons, and the CANCEL button itself, are not modelled.
- Header labels: the click handlers that call `toggle` only when the picker is not disabled (lines 53 and 60) are rendering wiring.
- `react-date-object` internals (`format`, `parse`, `setCalendar`, calendar systems) are opaque functions of `Library`. Month overflow is the assumption stated above.
- `shared/check`, `getFormat`, `stringify`, `toLocaleDigits`, `isRTL` and `getLocaleName` are not part of this model. Those that are used enter as `Library` fields.
- Popup positioning (`ElementPopper`, `refreshPosition`, `removeTransition`) is an external library.
- DOM work is not modelled: document listeners, mobile `classList`/`style` changes, `setSelectionRange`, `getInput`, and `isMobile`'s class-name test (the `mobile` flag is a prop instead).
- React wiring is not modelled: `useState`/`useEffect`/`forwardRef`, JSX, `setTimeout`, the JSX of `renderButtons` and `renderInput` (their OK handler and `inputMode` attribute are `DatePicker.ConfirmMobile` and `DatePicker.InputMode`), `renderCalendar`, `handleFocusedDate` and `setCalendarReady`.
- The documentation demo page has no logic.

=== FILE: date_picker.dfy ===
/** The date picker's own logic: how the `value` prop becomes the picker's
    date and input text, how typed text and calendar clicks commit a date,
    when opening the calendar picks today, and the input's `inputMode`.
    Rendering, DOM handling and popup placement are not modelled. */
module DatePicker {
  import opened Wrappers
  import opened Strings
  import opened DateObjects
  import opened Digits

  /* ---------------------------------------------------------------------
     Inputs
     --------------------------------------------------------------------- */

  /** A locale's `name`: a string, or any other value. */
  datatype LocaleName = NameText(text: string) | NameOther
  datatype Locale = Locale(name: LocaleName)

  /** The calls the picker makes into `react-date-object` and into its shared
      helpers, whose code is not part of this model. */
  datatype Library = Library(
    /** `date.format()` */
    format: DateObject -> string,
    /** the number `<` and `>` compare a date by */
    valueOf: DateObject -> int,
    /** the conversion `checkDate` applies to a present date: calendar,
        locale, format, names and digits of the picker */
    prepare: DateObject -> DateObject,
    /** `new DateObject(date).parse(text)` */
    parse: (Selection, string) -> DateObject,
    /** `toLocaleDigits(text, digits)` */
    toLocaleDigits: (string, seq<string>) -> string,
    /** `new DateObject({ year: 1, calendar, locale, format }).digits` */
    defaultDigits: seq<string>,
    /** `getLocaleName(locale)` */
    localeName: Locale -> string)

  /** The props the modelled logic reads; `mobile` is `isMobile()`. */
  datatype Props = Props(
    range: bool,
    multiple: bool,
    weekPicker: bool,
    editable: bool,
    disabled: bool,
    readOnly: bool,
    mobile: bool,
    inputMode: Option<string>,
    minDate: Option<DateObject>,
    maxDate: Option<DateObject>)

  /** The `value` prop: a falsy value, one date, or an array whose entries
      may be falsy (None). A string, number or JavaScript Date is
      represented by the DateObject the library builds from it. */
  datatype Value = Falsy | Scalar(date: DateObject) | List(items: seq<Option<DateObject>>)

  predicate Truthy(v: Value) {
    !v.Falsy?
  }

  /** JavaScript truthiness of a selection: an array is truthy even when empty. */
  predicate Holds(s: Selection) {
    !s.NoDate?
  }

  /** A stored selection fed back in as a value. */
  function FromSelection(s: Selection): (v: Value)
    ensures Truthy(v) <==> Holds(s)
  {
    match s
    case NoDate => Falsy
    case OneDate(d) => Scalar(d)
    case DateList(ds) => List(seq(|ds|, i requires 0 <= i < |ds| => Some(ds[i])))
  }

  /** `ref.current`: the last committed date, the remembered initial value
      and the separator. */
  datatype Ref = Ref(date: Selection, initialValue: Value, separator: string)

  /** `stringDate`: a plain string, or the list `getStringDate` returns,
      shown as its non-empty entries joined by the separator. */
  datatype Display = Text(text: string) | Parts(parts: seq<string>, separator: string)

  /** The text the input shows; a list shows nothing exactly when all its
      entries are empty. */
  function Shown(d: Display): (r: string)
    ensures d.Text? ==> r == d.text
    ensures d.Parts? ==> r == JoinWith(NonEmpty(d.parts), d.separator)
    ensures d.Parts? ==> (r == "" <==> forall k :: 0 <= k < |d.parts| ==> d.parts[k] == "")
  {
    match d
    case Text(t) => t
    case Parts(ps, sep) => JoinNonEmptyIsEmptyIff(ps, sep); JoinNonEmpty(ps, sep)
  }

  datatype PickerState = PickerState(
    date: Selection,
    temporaryDate: Selection,
    stringDate: Display,
    ref: Ref,
    isVisible: bool)

  /** The outcome of an event handler: the next state, and the argument of
      `onChange` when it is called. */
  datatype Change = Change(state: PickerState, notified: Option<Selection>)

  /* ---------------------------------------------------------------------
     Separator and string rendering
     --------------------------------------------------------------------- */

  /** Range and week selections read "from ~ to"; multiple selections are a
      comma list. */
  function Separator(range: bool, weekPicker: bool): (sep: string)
    ensures sep == " ~ " <==> range || weekPicker
    ensures sep == ", " <==> !(range || weekPicker)
  {
    if range || weekPicker then " ~ " else ", "
  }

  /** `date?.isValid ? date.format() : ""`. */
  function DateString(d: DateObject, lib: Library): (r: string)
    ensures d.isValid ==> r == lib.format(d)
    ensures !d.isValid ==> r == ""
  {
    if d.isValid then lib.format(d) else ""
  }

  /** One string per date, in order; invalid dates give "". */
  function StringDates(ds: seq<DateObject>, lib: Library): (r: seq<string>)
    ensures |r| == |ds|
    ensures forall k :: 0 <= k < |ds| ==> r[k] == (if ds[k].isValid then lib.format(ds[k]) else "")
  {
    if |ds| == 0 then [] else [DateString(ds[0], lib)] + StringDates(ds[1..], lib)
  }

  /** `getStringDate(date, separator)`: `[].concat(date)` makes a single date,
      or a missing one, a one-entry list. */
  function GetStringDate(s: Selection, lib: Library): (r: seq<string>)
    ensures |r| == (if s.DateList? then |s.dates| else 1)
    ensures s.DateList? ==> forall k :: 0 <= k < |r| ==> r[k] == DateString(s.dates[k], lib)
    ensures s.NoDate? ==> r == [""]
    ensures s.OneDate? ==> r == [DateString(s.date, lib)]
  {
    match s
    case NoDate => [""]
    case OneDate(d) => [DateString(d, lib)]
    case DateList(ds) => StringDates(ds, lib)
  }

  /** The text of a list display skips the dates that render as "": it is
      empty exactly when no date renders. */
  lemma ListTextEmptyIff(ds: seq<DateObject>, sep: string, lib: Library)
    ensures Shown(Parts(StringDates(ds, lib), sep)) == "" <==>
      forall k :: 0 <= k < |ds| ==> DateString(ds[k], lib) == ""
  {
    JoinNonEmptyIsEmptyIff(StringDates(ds, lib), sep);
  }

  /** A range of two rendering dates reads "from ~ to". */
  lemma RangeText(a: DateObject, b: DateObject, weekPicker: bool, lib: Library)
    requires DateString(a, lib) != "" && DateString(b, lib) != ""
    ensures Shown(Parts(StringDates([a, b], lib), Separator(true, weekPicker))) ==
      lib.format(a) + " ~ " + lib.format(b)
  {
    var ps := StringDates([a, b], lib);
    assert ps == [lib.format(a), lib.format(b)];
    assert NonEmpty(ps) == ps;
    assert ps[1..] == [lib.format(b)];
    assert JoinWith(ps[1..], " ~ ") == lib.format(b);
    assert JoinWith(ps, " ~ ") == lib.format(a) + " ~ " + lib.format(b);
  }

  /* ---------------------------------------------------------------------
     Synchronising with the `value` prop
     --------------------------------------------------------------------- */

  /** Without a value and without a remembered initial value, the last
      committed date stands in for the value. */
  function EffectiveValue(value: Value, ref: Ref): (v: Value)
    ensures Truthy(value) ==> v == value
    ensures v != value ==>
      !Truthy(value) && !Truthy(ref.initialValue) && Holds(ref.date) && v == FromSelection(ref.date)
    ensures !Truthy(value) && !Truthy(ref.initialValue) && Holds(ref.date) ==> v == FromSelection(ref.date)
  {
    if !Truthy(value) && !Truthy(ref.initialValue) && Holds(ref.date) then FromSelection(ref.date)
    else value
  }

  /** The remembered initial value is forgotten when the value goes falsy. */
  function InitialAfter(value: Value, ref: Ref): (r: Value)
    ensures Truthy(value) ==> r == ref.initialValue
    ensures !Truthy(value) ==> !Truthy(r)
  {
    if Truthy(ref.initialValue) && !Truthy(value) then Falsy else ref.initialValue
  }

  /** `date.map(checkDate).filter(value => value !== undefined)`. */
  function PresentDates(items: seq<Option<DateObject>>, lib: Library): (r: seq<DateObject>)
    ensures |r| <= |items|
    ensures (forall k :: 0 <= k < |items| ==> items[k].Some?) ==>
      |r| == |items| && forall k :: 0 <= k < |items| ==> r[k] == lib.prepare(items[k].value)
    ensures (forall k :: 0 <= k < |items| ==> items[k].None?) <==> r == []
    ensures |items| > 0 && items[0].Some? ==> r[0] == lib.prepare(items[0].value)
  {
    if |items| == 0 then []
    else
      match items[0]
      case None => PresentDates(items[1..], lib)
      case Some(d) => [lib.prepare(d)] + PresentDates(items[1..], lib)
  }

  /** An absent entry anywhere in the array leaves the present dates as
      they are; with the all-present case this fixes the filter: the
      result is the prepared present entries, in order. */
  lemma {:induction false} PresentDatesIgnoresNone(items: seq<Option<DateObject>>, k: nat, lib: Library)
    requires k <= |items|
    ensures PresentDates(items[..k] + [None] + items[k..], lib) == PresentDates(items, lib)
    decreases k
  {
    var xs := items[..k] + [None] + items[k..];
    if k == 0 {
      assert xs[1..] == items;
    } else {
      PresentDatesIgnoresNone(items[1..], k - 1, lib);
      assert xs[0] == items[0];
      assert xs[1..] == items[1..][..k - 1] + [None] + items[1..][k - 1..];
    }
  }

  /** `[date]` for a non-array value. */
  function ItemsOf(v: Value): seq<Option<DateObject>> {
    match v
    case Falsy => [None]
    case Scalar(d) => [Some(d)]
    case List(items) => items
  }

  /** A range keeps the first and the last of its present dates. */
  function KeepForRange(ds: seq<DateObject>, range: bool): (r: seq<DateObject>)
    ensures range ==> |r| <= 2
    ensures |r| <= |ds|
    ensures |ds| > 0 ==> |r| > 0 && r[0] == ds[0] && r[|r| - 1] == ds[|ds| - 1]
    ensures !range || |ds| <= 2 ==> r == ds
    ensures range && |ds| > 2 ==> |r| == 2
  {
    if range && |ds| > 2 then [ds[0], ds[|ds| - 1]] else ds
  }

  /** The effect that runs when `value` (or a formatting prop) changes.
      `inputFocused` is whether the text input has the focus. */
  function SyncValue(props: Props, value: Value, st: PickerState, inputFocused: bool, lib: Library): (r: PickerState)
    ensures r.(date := st.date, stringDate := st.stringDate, ref := st.ref) == st
    ensures r.ref.date == r.date && r.ref.separator == Separator(props.range, props.weekPicker)
    ensures props.range || props.multiple || value.List? ==> r.date.DateList?
    ensures props.range ==> r.date.DateList? && |r.date.dates| <= 2
    ensures r.date.DateList? ==>
      Shown(r.stringDate) == JoinNonEmpty(StringDates(r.date.dates, lib), Separator(props.range, props.weekPicker))
    ensures !r.date.DateList? && !inputFocused ==>
      r.stringDate == Text(if r.date.OneDate? then lib.format(r.date.date) else "")
    ensures !r.date.DateList? && inputFocused ==> r.stringDate == st.stringDate
    ensures value.Scalar? && !props.range && !props.multiple ==> r.date == OneDate(lib.prepare(value.date))
    ensures Truthy(st.ref.initialValue) && Truthy(value) ==> r.ref.initialValue == st.ref.initialValue
    ensures !Truthy(st.ref.initialValue) || !Truthy(value) ==> r.ref.initialValue == value
    ensures !Truthy(EffectiveValue(value, st.ref)) ==>
      r.date == (if props.range || props.multiple then DateList([]) else NoDate)
    ensures !Truthy(EffectiveValue(value, st.ref)) && (props.range || props.multiple || !inputFocused) ==>
      Shown(r.stringDate) == ""
  {
    var sep := Separator(props.range, props.weekPicker);
    var date := EffectiveValue(value, st.ref);
    var initial := InitialAfter(value, st.ref);
    var selection :=
      if props.range || props.multiple || date.List? then
        DateList(KeepForRange(PresentDates(ItemsOf(date), lib), props.range))
      else if date.Scalar? then OneDate(lib.prepare(date.date))
      else NoDate;
    var display :=
      if selection.DateList? then Parts(StringDates(selection.dates, lib), sep)
      else if inputFocused then st.stringDate
      else Text(if selection.OneDate? then lib.format(selection.date) else "");
    st.(date := selection, stringDate := display,
        ref := Ref(selection, if Truthy(initial) then initial else value, sep))
  }

  /* In list mode the date list is the present entries of the value,
     prepared, with a range cut to its first and last. */
  lemma SyncListDates(props: Props, value: Value, st: PickerState, focused: bool, lib: Library)
    requires Truthy(value) && (props.range || props.multiple || value.List?)
    ensures SyncValue(props, value, st, focused, lib).date ==
      DateList(KeepForRange(PresentDates(ItemsOf(value), lib), props.range))
  {
    assert EffectiveValue(value, st.ref) == value;
  }

  /** A falsy entry inserted anywhere into an array value changes neither
      the dates the picker holds nor the text it shows. */
  lemma SyncIgnoresFalsyEntry(props: Props, items: seq<Option<DateObject>>, k: nat,
                              st: PickerState, focused: bool, lib: Library)
    requires k <= |items|
    ensures var with := SyncValue(props, List(items[..k] + [None] + items[k..]), st, focused, lib);
      var without := SyncValue(props, List(items), st, focused, lib);
      with.date == without.date && with.stringDate == without.stringDate
  {
    SyncListDates(props, List(items[..k] + [None] + items[k..]), st, focused, lib);
    SyncListDates(props, List(items), st, focused, lib);
    PresentDatesIgnoresNone(items, k, lib);
  }

  /** In list mode a single value becomes a one-date list. */
  lemma SyncWrapsScalar(props: Props, value: Value, st: PickerState, focused: bool, lib: Library)
    requires value.Scalar? && (props.range || props.multiple)
    ensures SyncValue(props, value, st, focused, lib).date == DateList([lib.prepare(value.date)])
  {
    SyncListDates(props, value, st, focused, lib);
    assert PresentDates(ItemsOf(value), lib) == [lib.prepare(value.date)];
  }

  /** An array with no falsy entries becomes its dates, one for one and in
      order; a range longer than two keeps the first and the last. */
  lemma SyncMapsArray(props: Props, value: Value, st: PickerState, focused: bool, lib: Library)
    requires value.List? && forall k :: 0 <= k < |value.items| ==> value.items[k].Some?
    ensures var ds := SyncValue(props, value, st, focused, lib).date.dates;
      if props.range && |value.items| > 2 then
        ds == [lib.prepare(value.items[0].value), lib.prepare(value.items[|value.items| - 1].value)]
      else
        |ds| == |value.items| && forall k :: 0 <= k < |ds| ==> ds[k] == lib.prepare(value.items[k].value)
  {
    SyncListDates(props, value, st, focused, lib);
  }

  /** An array of falsy entries becomes the empty list, shown as "". */
  lemma SyncDropsFalsy(props: Props, value: Value, st: PickerState, focused: bool, lib: Library)
    requires value.List? && forall k :: 0 <= k < |value.items| ==> value.items[k].None?
    ensures SyncValue(props, value, st, focused, lib).date == DateList([])
    ensures Shown(SyncValue(props, value, st, focused, lib).stringDate) == ""
  {
    SyncListDates(props, value, st, focused, lib);
    assert StringDates([], lib) == [];
  }

  /** A falsy value, with no initial value remembered, keeps the last
      committed date, prepared again: a single date stays that date (a
      one-date list in range or multiple mode), a list keeps its dates one
      for one, and a range longer than two keeps its first and last. */
  lemma SyncKeepsLastDate(props: Props, st: PickerState, focused: bool, lib: Library)
    requires !Truthy(st.ref.initialValue) && Holds(st.ref.date)
    ensures st.ref.date.OneDate? && !props.range && !props.multiple ==>
      SyncValue(props, Falsy, st, focused, lib).date == OneDate(lib.prepare(st.ref.date.date))
    ensures st.ref.date.OneDate? && (props.range || props.multiple) ==>
      SyncValue(props, Falsy, st, focused, lib).date == DateList([lib.prepare(st.ref.date.date)])
    ensures st.ref.date.DateList? && (!props.range || |st.ref.date.dates| <= 2) ==>
      var ds := SyncValue(props, Falsy, st, focused, lib).date.dates;
      |ds| == |st.ref.date.dates| &&
      forall k :: 0 <= k < |ds| ==> ds[k] == lib.prepare(st.ref.date.dates[k])
    ensures st.ref.date.DateList? && props.range && |st.ref.date.dates| > 2 ==>
      var dates := st.ref.date.dates;
      SyncValue(props, Falsy, st, focused, lib).date ==
        DateList([lib.prepare(dates[0]), lib.prepare(dates[|dates| - 1])])
  {
    SyncFallbackDates(props, st, focused, lib);
    if st.ref.date.DateList? {
      PresentOfSelection(st.ref.date.dates, lib);
    } else if props.range || props.multiple {
      assert PresentDates([Some(st.ref.date.date)], lib) == [lib.prepare(st.ref.date.date)];
    }
  }

  /* The effect on a falsy value with nothing remembered works on the last
     committed date. */
  lemma SyncFallbackDates(props: Props, st: PickerState, focused: bool, lib: Library)
    requires !Truthy(st.ref.initialValue) && Holds(st.ref.date)
    ensures var v := FromSelection(st.ref.date);
      SyncValue(props, Falsy, st, focused, lib).date ==
        if props.range || props.multiple || v.List? then DateList(KeepForRange(PresentDates(ItemsOf(v), lib), props.range))
        else OneDate(lib.prepare(v.date))
  {
    assert EffectiveValue(Falsy, st.ref) == FromSelection(st.ref.date);
  }

  /* A stored list fed back as a value has every entry present. */
  lemma PresentOfSelection(ds: seq<DateObject>, lib: Library)
    ensures var ps := PresentDates(FromSelection(DateList(ds)).items, lib);
      |ps| == |ds| && forall k :: 0 <= k < |ds| ==> ps[k] == lib.prepare(ds[k])
  {
    var items := FromSelection(DateList(ds)).items;
    assert forall k :: 0 <= k < |items| ==> items[k] == Some(ds[k]);
  }


  /** Single mode never holds a list; the array branch that would take the
      last entry of an array value cannot be reached, because an array value
      always selects list mode. */
  lemma SingleModeShape(props: Props, value: Value, st: PickerState, focused: bool, lib: Library)
    requires !props.range && !props.multiple
    ensures SyncValue(props, value, st, focused, lib).date.DateList? <==> EffectiveValue(value, st.ref).List?
    ensures value.Falsy? && !Holds(st.ref.date) ==> SyncValue(props, value, st, focused, lib).date == NoDate
  {
  }

  /* ---------------------------------------------------------------------
     Committing a date
     --------------------------------------------------------------------- */

  /** `handleChange(date, force)`: on mobile, unless forced, the date is only
      held as a temporary one until the OK button; otherwise it is
      committed, reported to `onChange`, and shown. */
  function HandleChange(props: Props, st: PickerState, d: Selection, force: bool, lib: Library): (r: Change)
    ensures r.notified.Some? <==> !(props.mobile && !force)
    ensures r.notified.None? ==> r.state == st.(temporaryDate := d)
    ensures r.notified.Some? ==>
      && r.notified.value == d
      && r.state.date == d
      && r.state.ref == st.ref.(date := d)
      && r.state.temporaryDate == st.temporaryDate
      && r.state.isVisible == st.isVisible
    ensures r.notified.Some? && Holds(d) ==>
      Shown(r.state.stringDate) == JoinNonEmpty(GetStringDate(d, lib), Separator(props.range, props.weekPicker))
    ensures r.notified.Some? && !Holds(d) ==> r.state.stringDate == st.stringDate
  {
    if props.mobile && !force then Change(st.(temporaryDate := d), None)
    else
      var text := if Holds(d) then Parts(GetStringDate(d, lib), Separator(props.range, props.weekPicker))
                  else st.stringDate;
      Change(st.(date := d, ref := st.ref.(date := d), stringDate := text), Some(d))
  }

  /** On mobile a click only parks the date; the OK button then calls
      `handleChange(temporaryDate, true)`, which commits the parked date and
      reports it to `onChange`. */
  lemma MobileConfirmCommits(props: Props, st: PickerState, d: Selection, lib: Library)
    requires props.mobile
    ensures var parked := HandleChange(props, st, d, false, lib);
      var confirmed := ConfirmMobile(props, parked.state, lib);
      && parked.notified.None?
      && (Holds(d) ==>
            && confirmed.notified == Some(d)
            && confirmed.state.date == d
            && confirmed.state.ref.date == d)
      && (!Holds(d) ==> confirmed.notified.None? && confirmed.state.date == st.date)
  {
  }

  /** The OK button of the mobile action bar: a parked (truthy) temporary
      date is committed by a forced `handleChange` and then forgotten; with
      nothing parked nothing is committed. */
  function ConfirmMobile(props: Props, st: PickerState, lib: Library): (r: Change)
    ensures r.notified.Some? <==> Holds(st.temporaryDate)
    ensures Holds(st.temporaryDate) ==>
      && r.notified == Some(st.temporaryDate)
      && r.state.date == st.temporaryDate
      && r.state.ref == st.ref.(date := st.temporaryDate)
      && r.state.temporaryDate == NoDate
      && Shown(r.state.stringDate) ==
           JoinNonEmpty(GetStringDate(st.temporaryDate, lib), Separator(props.range, props.weekPicker))
    ensures !Holds(st.temporaryDate) ==> r == Change(st, None)
  {
    if Holds(st.temporaryDate) then
      var c := HandleChange(props, st, st.temporaryDate, true, lib);
      c.(state := c.state.(temporaryDate := NoDate))
    else Change(st, None)
  }

  /** `handleValueChange`: the input's `onChange`. Ignored for a list date
      or a non-editable picker; empty text clears the date; other text has
      its locale digits converted to ASCII, is parsed, and commits the parsed
      date when valid and null otherwise. */
  function HandleValueChange(props: Props, st: PickerState, text: string, lib: Library): (r: Change)
    ensures st.date.DateList? || !props.editable ==> r == Change(st, None)
    ensures !st.date.DateList? && props.editable && text == "" ==>
      Shown(r.state.stringDate) == "" && (r.notified.Some? ==> r.notified.value == NoDate)
    ensures !st.date.DateList? && props.editable && !props.mobile ==>
      r.notified.Some? && r.state.date == r.notified.value
    ensures r.notified.Some? && r.notified.value.OneDate? ==>
      text != "" && r.notified.value.date.isValid
    ensures r.notified.Some? ==> !r.notified.value.DateList?
    ensures !st.date.DateList? && props.editable && text != "" ==>
      var ascii := Transliterate(text, EditDigits(st, lib));
      r.state.stringDate == Text(lib.toLocaleDigits(ascii, EditDigits(st, lib)))
    ensures !st.date.DateList? && props.editable && text != "" ==>
      var p := lib.parse(st.date, Transliterate(text, EditDigits(st, lib)));
      var d := if p.isValid then OneDate(p) else NoDate;
      if props.mobile then r.notified.None? && r.state.temporaryDate == d
      else r.notified == Some(d)
    ensures !st.date.DateList? && props.editable && text == "" && props.mobile ==>
      r.notified.None? && r.state.temporaryDate == NoDate
  {
    if st.date.DateList? || !props.editable then Change(st, None)
    else
      var digits := EditDigits(st, lib);
      if text == "" then HandleChange(props, st.(stringDate := Text("")), NoDate, false, lib)
      else
        var ascii := Transliterate(text, digits);
        var parsed := lib.parse(st.date, ascii);
        var c := HandleChange(props, st, if parsed.isValid then OneDate(parsed) else NoDate, false, lib);
        c.(state := c.state.(stringDate := Text(lib.toLocaleDigits(ascii, digits))))
  }

  /** The digits of the date being edited (or the default ones) used to read
      typed text. */
  function EditDigits(st: PickerState, lib: Library): seq<string> {
    if st.date.OneDate? && st.date.date.isValid then st.date.date.digits else lib.defaultDigits
  }

  /** Typed text reaches the parser with every locale digit converted: with
      a digit table, the ASCII digit k stands wherever `digits[k]` was typed,
      and every other character is kept. A valid parse of that text is what
      gets committed. */
  lemma TypedTextReachesParser(props: Props, st: PickerState, text: string, lib: Library)
    requires !st.date.DateList? && props.editable && !props.mobile && text != ""
    requires DigitTable(EditDigits(st, lib))
    ensures var ascii := Transliterate(text, EditDigits(st, lib));
      && |ascii| == |text|
      && (forall n, k :: 0 <= n < |text| && 0 <= k < 10 && text[n] == EditDigits(st, lib)[k][0] ==>
            ascii[n] == AsciiDigit(k))
      && (forall n :: 0 <= n < |text| && NotADigitOf(text[n], EditDigits(st, lib)) ==> ascii[n] == text[n])
      && HandleValueChange(props, st, text, lib).notified ==
           Some(if lib.parse(st.date, ascii).isValid then OneDate(lib.parse(st.date, ascii)) else NoDate)
  {
  }

  /* ---------------------------------------------------------------------
     Button labels
     --------------------------------------------------------------------- */

  /** The OK/CANCEL table of the mobile action buttons. */
  function Actions(localeName: string, key: string): Option<string> {
    if key != "OK" && key != "CANCEL" then None
    else if localeName == "en" then Some(key)
    else if localeName == "fa" then Some(if key == "OK" then "تأیید" else "لغو")
    else if localeName == "ar" then Some(if key == "OK" then "تأكيد" else "الغاء")
    else if localeName == "hi" then Some(if key == "OK" then "पुष्टि" else "रद्द करें")
    else None
  }

  /** `toLocale(string)`: the table entry for the locale's name, falling
      back to the key itself. */
  function ToLocale(locale: Option<Locale>, key: string, lib: Library): (r: string)
    ensures locale.None? || locale.value.name.NameOther? ==> r == key
    ensures locale.Some? && locale.value.name.NameText? && Actions(lib.localeName(locale.value), key).Some? ==>
      r == Actions(lib.localeName(locale.value), key).value
    ensures r != key ==>
      && locale.Some? && locale.value.name.NameText?
      && (key == "OK" || key == "CANCEL")
      && Actions(lib.localeName(locale.value), key) == Some(r)
  {
    if locale.None? || !locale.value.name.NameText? then key
    else
      match Actions(lib.localeName(locale.value), key)
      case Some(t) => if t != "" then t else key
      case None => key
  }

  /** Every entry of the table is a non-empty text, so a label never falls
      back for a known locale and key; English labels are the keys. */
  lemma ActionsTable(name: string, key: string)
    ensures Actions(name, key).Some? <==>
      (key == "OK" || key == "CANCEL") && (name == "en" || name == "fa" || name == "ar" || name == "hi")
    ensures Actions(name, key).Some? ==> Actions(name, key).value != ""
    ensures name == "en" && Actions(name, key).Some? ==> Actions(name, key).value == key
    ensures Actions(name, key).Some? && name != "en" ==> Actions(name, key).value != key
  {
  }

  /* ---------------------------------------------------------------------
     Opening the calendar
     --------------------------------------------------------------------- */

  /** `(!minDate || date > minDate) && (!maxDate || date < maxDate)`. */
  predicate StrictlyWithin(d: DateObject, props: Props, lib: Library) {
    && (props.minDate.None? || lib.valueOf(d) > lib.valueOf(props.minDate.value))
    && (props.maxDate.None? || lib.valueOf(d) < lib.valueOf(props.maxDate.value))
  }

  /** `openCalendar()`. `now` is the date the library creates for the current
      moment, `hasInput` whether an input element is found,
      `openVetoed`/`closeVetoed` whether `onOpen`/`onClose` return false. */
  function OpenCalendar(props: Props, value: Value, st: PickerState, now: DateObject,
                        hasInput: bool, openVetoed: bool, closeVetoed: bool, lib: Library): (r: Change)
    ensures props.disabled || props.readOnly || openVetoed ==> r == Change(st, None)
    ensures r.notified.Some? ==>
      && r.notified.value == OneDate(now)
      && r.state.date == OneDate(now)
      && r.state.ref.date == OneDate(now)
      && StrictlyWithin(now, props, lib)
      && !Truthy(value) && !Holds(st.ref.date)
      && !props.range && !props.multiple && !props.mobile
    ensures (&& !(props.disabled || props.readOnly || openVetoed)
             && !Truthy(value) && !Holds(st.ref.date)
             && !props.range && !props.multiple && !props.mobile) ==>
      (r.notified.Some? <==> StrictlyWithin(now, props, lib))
    ensures r.notified.None? ==> r.state.date == st.date && r.state.ref == st.ref
    ensures r.notified.None? ==> r.state == st.(isVisible := r.state.isVisible)
    ensures r.notified.Some? ==>
      Shown(r.state.stringDate) == DateString(now, lib) && r.state.temporaryDate == st.temporaryDate
    ensures !(props.disabled || props.readOnly || openVetoed) && (hasInput || !st.isVisible) ==> r.state.isVisible
    ensures !(props.disabled || props.readOnly || openVetoed) && !hasInput && st.isVisible ==>
      r.state.isVisible == closeVetoed
  {
    if props.disabled || props.readOnly || openVetoed then Change(st, None)
    else
      var c :=
        if !Truthy(value) && !Holds(st.ref.date) && !props.range && !props.multiple && !props.mobile
           && StrictlyWithin(now, props, lib) then
          var h := HandleChange(props, st, OneDate(now), false, lib);
          h.(state := h.state.(ref := h.state.ref.(date := OneDate(now))))
        else Change(st, None);
      var visible := if hasInput || !st.isVisible then true else closeVetoed && st.isVisible;
      c.(state := c.state.(isVisible := visible))
  }

  /** Today is committed at most once: after an open that committed it, a
      second open, at any later moment, commits nothing. */
  lemma OpenCalendarCommitsOnce(props: Props, value: Value, st: PickerState, now: DateObject, later: DateObject,
                                hasInput: bool, openVetoed: bool, closeVetoed: bool, lib: Library)
    ensures var first := OpenCalendar(props, value, st, now, hasInput, openVetoed, closeVetoed, lib);
      first.notified.Some? ==>
        OpenCalendar(props, value, first.state, later, hasInput, openVetoed, closeVetoed, lib).notified.None?
  {
  }

  /* ---------------------------------------------------------------------
     Input mode
     --------------------------------------------------------------------- */

  /** Whether the on-screen keyboard is suppressed by the selection kind. */
  predicate KeyboardForced(props: Props, date: Selection) {
    props.multiple || props.range || date.DateList? || !props.editable
  }

  /** The `inputMode` after the picker's override: "none" for lists and
      non-editable pickers, the prop otherwise. */
  function ForcedInputMode(props: Props, date: Selection): (r: Option<string>)
    ensures KeyboardForced(props, date) ==> r == Some("none")
    ensures !KeyboardForced(props, date) ==> r == props.inputMode
  {
    if KeyboardForced(props, date) then Some("none") else props.inputMode
  }

  /** The input's `inputMode` attribute, `inputMode || (isMobileMode ? "none"
      : undefined)`: "none" for lists and non-editable pickers, otherwise the
      prop when non-empty, otherwise "none" on mobile and absent elsewhere. */
  function InputMode(props: Props, date: Selection): (r: Option<string>)
    ensures KeyboardForced(props, date) ==> r == Some("none")
    ensures !KeyboardForced(props, date) && props.inputMode.Some? && props.inputMode.value != "" ==>
      r == props.inputMode
    ensures !KeyboardForced(props, date) && (props.inputMode.None? || props.inputMode.value == "") ==>
      r == (if props.mobile then Some("none") else None)
  {
    var mode := ForcedInputMode(props, date);
    if mode.Some? && mode.value != "" then mode
    else if props.mobile then Some("none")
    else None
  }

  /** Once the value effect has run in range or multiple mode, or on an
      array value, the on-screen keyboard is suppressed. */
  lemma SyncedListSuppressesKeyboard(props: Props, value: Value, st: PickerState, focused: bool, lib: Library)
    requires props.range || props.multiple || value.List?
    ensures InputMode(props, SyncValue(props, value, st, focused, lib).date) == Some("none")
  {
  }
}

=== FILE: dates.dfy ===
/** The part of `react-date-object`'s DateObject that the header and the
    date picker read or write. The library itself is not part of this
    model: its arithmetic is stated here as an assumption (see AddMonths),
    and its formatting, parsing and comparison are passed in as functions
    by the modules that need them. */
module DateObjects {

  /** `date.month.index`: January is 0, December is 11. */
  type MonthIndex = i: int | 0 <= i < 12

  datatype DateObject = DateObject(
    year: int,
    monthIndex: MonthIndex,
    day: int,
    isValid: bool,
    /** the ten digit strings of the date's locale, `digits[d]` standing for decimal digit d */
    digits: seq<string>,
    /** `date.months[i].name` for i in 0..11 */
    monthNames: seq<string>)
  {
    /** `date.month.number`: January is 1, December is 12. */
    function MonthNumber(): int {
      monthIndex + 1
    }
  }

  /** What a picker holds: nothing (`undefined`/`null`), one date, or a
      list of dates (multiple, range and week selection). */
  datatype Selection = NoDate | OneDate(date: DateObject) | DateList(dates: seq<DateObject>)

  /** Months elapsed since January of year 0: the absolute position of the
      date's month on the time line. */
  function MonthCount(d: DateObject): int {
    d.year * 12 + d.monthIndex
  }

  /** `date.month += v`. Assumption about the library: an index past
      December (or before January) is normalised by carrying whole years
      into `year`. Day and every other field are kept. */
  function AddMonths(d: DateObject, v: int): (r: DateObject)
    ensures MonthCount(r) == MonthCount(d) + v
    ensures r.(year := d.year, monthIndex := d.monthIndex) == d
  {
    var total := d.monthIndex + v;
    d.(year := d.year + total / 12, monthIndex := total % 12)
  }

  /** Two dates in the same month position agree on year and month index. */
  lemma MonthCountDetermines(a: DateObject, b: DateObject)
    requires MonthCount(a) == MonthCount(b)
    ensures a.year == b.year && a.monthIndex == b.monthIndex
  {
  }

  /** `date.toFirstOfMonth()`. */
  function ToFirstOfMonth(d: DateObject): (r: DateObject)
    ensures r.day == 1
    ensures r.(day := d.day) == d
  {
    d.(day := 1)
  }
}

=== FILE: digits.dfy ===
/** Localized digits. The header writes a year with the locale's digits
    (each ASCII digit d becomes `digits[d]`); the date picker reads typed
    text back by replacing every occurrence of each `digits[i]` by the
    ASCII digit i, one digit string after the other. */
module Digits {
  import opened Strings

  /** `s.replace(/[0-9]/g, w => digits[w])`. */
  function LocalizeDigits(s: string, digits: seq<string>): (r: string)
    requires |digits| == 10
    ensures (forall k :: 0 <= k < 10 ==> |digits[k]| == 1) ==>
      |r| == |s| &&
      forall k :: 0 <= k < |s| ==>
        r[k] == (if IsAsciiDigit(s[k]) then digits[s[k] as int - '0' as int][0] else s[k])
    ensures |s| == 1 && IsAsciiDigit(s[0]) ==> r == digits[s[0] as int - '0' as int]
    ensures |s| == 1 && !IsAsciiDigit(s[0]) ==> r == s
  {
    if |s| == 0 then ""
    else
      var head := if IsAsciiDigit(s[0]) then digits[s[0] as int - '0' as int] else [s[0]];
      head + LocalizeDigits(s[1..], digits)
  }

  /** Localization works character by character, whatever the length of the
      digit strings: localizing a concatenation localizes each part. */
  lemma {:induction false} LocalizeDigitsAppend(a: string, b: string, digits: seq<string>)
    requires |digits| == 10
    ensures LocalizeDigits(a + b, digits) == LocalizeDigits(a, digits) + LocalizeDigits(b, digits)
    decreases |a|
  {
    if |a| > 0 {
      LocalizeDigitsAppend(a[1..], b, digits);
      assert (a + b)[0] == a[0];
      assert (a + b)[1..] == a[1..] + b;
    } else {
      assert a + b == b;
    }
  }

  /** `digits.indexOf(x)` for an `x` that occurs. */
  function IndexOf(xs: seq<string>, x: string): (k: nat)
    requires x in xs
    ensures k < |xs| && xs[k] == x
    ensures forall j :: 0 <= j < k ==> xs[j] != x
  {
    if xs[0] == x then 0 else 1 + IndexOf(xs[1..], x)
  }

  /** The loop that converts typed text to ASCII digits:
      for each `digit` of `digits`, every occurrence of it is replaced by
      the decimal text of `digits.indexOf(digit)`. */
  function Transliterate(value: string, digits: seq<string>): (r: string)
    ensures DigitTable(digits) ==> |r| == |value|
    ensures DigitTable(digits) ==>
      forall n, k :: 0 <= n < |value| && 0 <= k < 10 && value[n] == digits[k][0] ==> r[n] == AsciiDigit(k)
    ensures DigitTable(digits) ==>
      forall n :: 0 <= n < |value| && NotADigitOf(value[n], digits) ==> r[n] == value[n]
  {
    if DigitTable(digits) then
      TransliterateFromIsCharwise(value, digits, 0);
      StepCharsOnTable(value, digits);
      TransliterateFrom(value, digits, 0)
    else TransliterateFrom(value, digits, 0)
  }

  function TransliterateFrom(value: string, digits: seq<string>, i: nat): string
    requires i <= |digits|
    decreases |digits| - i
  {
    if i == |digits| then value
    else
      var index := IndexOf(digits, digits[i]);
      TransliterateFrom(ReplaceAll(value, digits[i], NatToDecimal(index)), digits, i + 1)
  }

  /** A digit table as a DateObject carries it: ten distinct one-character
      strings, none of which is the ASCII digit of a smaller position (so a
      digit already converted to ASCII is never converted again). The
      English table "0".."9" and the Persian, Arabic and Hindi tables all
      qualify. */
  predicate DigitTable(digits: seq<string>) {
    && |digits| == 10
    && (forall k :: 0 <= k < 10 ==> |digits[k]| == 1)
    && (forall j, k :: 0 <= j < k < 10 ==> digits[j] != digits[k])
    && (forall j, k :: 0 <= j < k < 10 ==> digits[k][0] != AsciiDigit(j))
  }

  /** `c` is none of the table's digit characters. */
  predicate NotADigitOf(c: char, digits: seq<string>)
    requires DigitTable(digits)
  {
    forall k :: 0 <= k < 10 ==> digits[k][0] != c
  }

  /* Character-level view of the conversion loop, from position i on. */

  function StepChar(x: char, digits: seq<string>, i: nat): char
    requires DigitTable(digits) && i <= 10
    decreases 10 - i
  {
    if i == 10 then x
    else StepChar(if x == digits[i][0] then AsciiDigit(i) else x, digits, i + 1)
  }

  function StepChars(v: string, digits: seq<string>, i: nat): (r: string)
    requires DigitTable(digits) && i <= 10
    ensures |r| == |v|
    ensures forall k :: 0 <= k < |v| ==> r[k] == StepChar(v[k], digits, i)
  {
    if |v| == 0 then ""
    else [StepChar(v[0], digits, i)] + StepChars(v[1..], digits, i)
  }

  lemma {:induction false} StepCharFixed(x: char, digits: seq<string>, i: nat)
    requires DigitTable(digits) && i <= 10
    requires forall j :: i <= j < 10 ==> digits[j][0] != x
    ensures StepChar(x, digits, i) == x
    decreases 10 - i
  {
    if i < 10 {
      StepCharFixed(x, digits, i + 1);
    }
  }

  lemma {:induction false} StepCharDigit(digits: seq<string>, k: nat, i: nat)
    requires DigitTable(digits) && i <= k < 10
    ensures StepChar(digits[k][0], digits, i) == AsciiDigit(k)
    decreases 10 - i
  {
    if i == k {
      StepCharFixed(AsciiDigit(k), digits, k + 1);
    } else {
      assert digits[i] == [digits[i][0]] && digits[k] == [digits[k][0]];
      StepCharDigit(digits, k, i + 1);
    }
  }

  /** One pass of the loop, at position i < 10 of a digit table, replaces
      the one-character `digits[i]` by the one-character ASCII digit i. */
  lemma StepIsSubstitution(v: string, digits: seq<string>, i: nat)
    requires DigitTable(digits) && i < 10
    ensures ReplaceAll(v, digits[i], NatToDecimal(IndexOf(digits, digits[i]))) ==
      SubstituteChar(v, digits[i][0], AsciiDigit(i))
  {
    assert IndexOf(digits, digits[i]) == i;
    assert digits[i] == [digits[i][0]];
    assert NatToDecimal(i) == [AsciiDigit(i)];
    ReplaceOneChar(v, digits[i][0], AsciiDigit(i));
  }

  lemma StepCharsShift(v: string, digits: seq<string>, i: nat)
    requires DigitTable(digits) && i < 10
    ensures StepChars(SubstituteChar(v, digits[i][0], AsciiDigit(i)), digits, i + 1) == StepChars(v, digits, i)
  {
  }

  lemma StepCharsDone(v: string, digits: seq<string>)
    requires DigitTable(digits)
    ensures StepChars(v, digits, 10) == v
  {
  }

  /** The conversion loop is a character-wise map on a digit table. */
  lemma {:induction false} TransliterateFromIsCharwise(v: string, digits: seq<string>, i: nat)
    requires DigitTable(digits) && i <= 10
    ensures TransliterateFrom(v, digits, i) == StepChars(v, digits, i)
    decreases 10 - i
  {
    if i == 10 {
      StepCharsDone(v, digits);
    } else {
      StepIsSubstitution(v, digits, i);
      var w := SubstituteChar(v, digits[i][0], AsciiDigit(i));
      TransliterateFromIsCharwise(w, digits, i + 1);
      StepCharsShift(v, digits, i);
    }
  }

  /** From the start of a digit table, the character map sends `digits[k]`
      to the ASCII digit k and keeps every other character. */
  lemma StepCharsOnTable(v: string, digits: seq<string>)
    requires DigitTable(digits)
    ensures forall n, k :: 0 <= n < |v| && 0 <= k < 10 && v[n] == digits[k][0] ==>
      StepChars(v, digits, 0)[n] == AsciiDigit(k)
    ensures forall n :: 0 <= n < |v| && NotADigitOf(v[n], digits) ==> StepChars(v, digits, 0)[n] == v[n]
  {
    forall n, k | 0 <= n < |v| && 0 <= k < 10 && v[n] == digits[k][0]
      ensures StepChars(v, digits, 0)[n] == AsciiDigit(k)
    {
      StepCharDigit(digits, k, 0);
    }
    forall n | 0 <= n < |v| && NotADigitOf(v[n], digits)
      ensures StepChars(v, digits, 0)[n] == v[n]
    {
      StepCharFixed(v[n], digits, 0);
    }
  }

  /** Writing text with the locale's digits and reading it back through the
      typed-input conversion gives the text back, provided its other
      characters are not digit characters of the table. */
  lemma LocalizeThenTransliterate(s: string, digits: seq<string>)
    requires DigitTable(digits)
    requires forall n :: 0 <= n < |s| ==> IsAsciiDigit(s[n]) || NotADigitOf(s[n], digits)
    ensures Transliterate(LocalizeDigits(s, digits), digits) == s
  {
    var l := LocalizeDigits(s, digits);
    var t := Transliterate(l, digits);
    forall n | 0 <= n < |s|
      ensures t[n] == s[n]
    {
      if IsAsciiDigit(s[n]) {
        var k := s[n] as int - '0' as int;
        assert l[n] == digits[k][0];
        assert AsciiDigit(k) == s[n];
      }
    }
  }
}

=== FILE: header.dfy ===
/** The calendar header: the month and year labels of the displayed
    months, the arrows that page the cursor date, and the two switches
    that open the month and year pickers. */
module Header {
  import opened Wrappers
  import opened Strings
  import opened DateObjects
  import opened Digits

  /** The calendar state the header reads and writes. `date` is the cursor
      (the month on display); `minDate`/`maxDate` are the calendar's bounds. */
  datatype HeaderState = HeaderState(
    date: DateObject,
    selectedDate: Selection,
    mustShowMonthPicker: bool,
    mustShowYearPicker: bool,
    onlyMonthPicker: bool,
    onlyYearPicker: bool,
    minDate: Option<DateObject>,
    maxDate: Option<DateObject>)

  /* ---------------------------------------------------------------------
     Labels
     --------------------------------------------------------------------- */

  /** An entry of the `customMonths` prop: a name, or a list of names of
      which the first is shown. */
  datatype MonthEntry = Name(name: string) | Names(names: seq<string>)

  /** The `customMonths` prop: anything that is not an array, or an array. */
  datatype CustomMonths = NotAList | MonthList(entries: seq<MonthEntry>)

  /** `Array.isArray(month) ? month[0] : month`; None is `undefined`. */
  function EntryName(e: MonthEntry): Option<string> {
    match e
    case Name(n) => Some(n)
    case Names(ns) => if |ns| > 0 then Some(ns[0]) else None
  }

  /** Custom names replace the date's own only for an array of at least 12. */
  predicate UsesCustom(custom: CustomMonths) {
    custom.MonthList? && |custom.entries| >= 12
  }

  /** The month index shown at `offset`: one wrap past December at most. */
  function LabelIndex(date: DateObject, offset: nat): nat {
    var raw := date.monthIndex + offset;
    if raw > 11 then raw - 12 else raw
  }

  /** The year shown at `offset`: one more than the cursor's after a wrap. */
  function LabelYear(date: DateObject, offset: nat): int {
    if date.monthIndex + offset > 11 then date.year + 1 else date.year
  }

  /** Whether the label at `offset` can be computed: without custom names
      the source reads `state.date.months[index].name`, which throws past
      the end of the month list. */
  predicate LabelDefined(date: DateObject, custom: CustomMonths, offset: nat) {
    UsesCustom(custom) || LabelIndex(date, offset) < |date.monthNames|
  }

  function MonthLabel(date: DateObject, custom: CustomMonths, offset: nat): Option<string>
    requires LabelDefined(date, custom, offset)
  {
    var index := LabelIndex(date, offset);
    if UsesCustom(custom) then
      (if index < |custom.entries| then EntryName(custom.entries[index]) else None)
    else Some(date.monthNames[index])
  }

  /** The year written with the date's digits. */
  function YearLabel(date: DateObject, offset: nat): string
    requires |date.digits| == 10
  {
    LocalizeDigits(IntToDecimal(LabelYear(date, offset)), date.digits)
  }

  datatype HeaderLabels = HeaderLabels(monthNames: seq<Option<string>>, years: seq<string>)

  /** The label loop over the `numberOfMonths` displayed months. None when
      the loop throws (a month index past the month list). */
  function Labels(date: DateObject, custom: CustomMonths, numberOfMonths: nat): (r: Option<HeaderLabels>)
    requires |date.digits| == 10
    ensures r.Some? <==> forall k :: 0 <= k < numberOfMonths ==> LabelDefined(date, custom, k)
    ensures r.Some? ==>
      && |r.value.monthNames| == numberOfMonths
      && |r.value.years| == numberOfMonths
      && (forall k :: 0 <= k < numberOfMonths ==>
            && r.value.monthNames[k] == MonthLabel(date, custom, k)
            && r.value.years[k] == YearLabel(date, k))
  {
    if numberOfMonths == 0 then Some(HeaderLabels([], []))
    else
      var k := numberOfMonths - 1;
      match Labels(date, custom, k)
      case None => None
      case Some(prefix) =>
        if LabelDefined(date, custom, k) then
          Some(HeaderLabels(prefix.monthNames + [MonthLabel(date, custom, k)],
                            prefix.years + [YearLabel(date, k)]))
        else None
  }

  /** For up to a year ahead, the label at `offset` names the month that
      lies `offset` months after the cursor: its index stays in 0..11 and
      the year is carried exactly when the raw index passes December. */
  lemma LabelIsOffsetMonth(date: DateObject, offset: nat)
    requires offset <= 12
    ensures 0 <= LabelIndex(date, offset) < 12
    ensures LabelYear(date, offset) == date.year + 1 <==> date.monthIndex + offset > 11
    ensures LabelIndex(date, offset) == AddMonths(date, offset).monthIndex
    ensures LabelYear(date, offset) == AddMonths(date, offset).year
  {
    var moved := AddMonths(date, offset);
    var shown := date.(year := LabelYear(date, offset), monthIndex := LabelIndex(date, offset));
    MonthCountDetermines(moved, shown);
  }

  /** With a twelve-name month list, the loop completes exactly when no
      label lies two or more years ahead: always with custom names, and
      otherwise when the start index plus the month count is at most 24. */
  lemma LabelsDefinedIff(date: DateObject, custom: CustomMonths, numberOfMonths: nat)
    requires |date.digits| == 10 && |date.monthNames| == 12
    ensures Labels(date, custom, numberOfMonths).Some? <==>
      UsesCustom(custom) || numberOfMonths == 0 || date.monthIndex + numberOfMonths <= 24
  {
    if !UsesCustom(custom) && numberOfMonths > 0 && date.monthIndex + numberOfMonths > 24 {
      assert !LabelDefined(date, custom, numberOfMonths - 1);
    }
  }

  /** The year label, read back through the date picker's typed-input digit
      conversion, is the decimal year. */
  lemma YearLabelReadsBack(date: DateObject, offset: nat)
    requires DigitTable(date.digits) && NotADigitOf('-', date.digits)
    ensures Transliterate(YearLabel(date, offset), date.digits) == IntToDecimal(LabelYear(date, offset))
    ensures LabelYear(date, offset) >= 0 ==>
      ParseDecimal(Transliterate(YearLabel(date, offset), date.digits)) == LabelYear(date, offset)
  {
    var s := IntToDecimal(LabelYear(date, offset));
    assert forall n :: 0 <= n < |s| ==> IsAsciiDigit(s[n]) || s[n] == '-';
    LocalizeThenTransliterate(s, date.digits);
  }

  /* ---------------------------------------------------------------------
     Paging (the arrows)
     --------------------------------------------------------------------- */

  /** The outcome of an arrow click: refused (nothing changes and `onChange`
      is not called), or `onChange(selected, next)`. */
  datatype Paging = Refused | Paged(selected: Option<Selection>, next: HeaderState)

  /** Month paging is in force unless a year picker is showing. */
  predicate MonthMode(s: HeaderState) {
    !s.mustShowYearPicker && !s.onlyYearPicker
  }

  /** The month-mode guards: at or before the minimum's year with the
      minimum's month number past the target number, or the symmetric
      condition for the maximum. */
  predicate MonthGuardRefuses(s: HeaderState, value: int) {
    || (s.minDate.Some? && s.date.year <= s.minDate.value.year
        && s.minDate.value.MonthNumber() > s.date.MonthNumber() + value)
    || (s.maxDate.Some? && s.date.year >= s.maxDate.value.year
        && s.maxDate.value.MonthNumber() < s.date.MonthNumber() + value)
  }

  /** The year-picker guards: the target year is outside the bounds' years. */
  predicate YearGuardRefuses(s: HeaderState, value: int) {
    || (s.minDate.Some? && s.minDate.value.year > s.date.year + value)
    || (s.maxDate.Some? && s.maxDate.value.year < s.date.year + value)
  }

  /** `increaseValue(value)`. In month mode the cursor moves to day 1 and
      then by `value` months, or by `value` years with `onlyMonthPicker`;
      in year-picker mode it moves by `value` pages of twelve years. */
  function IncreaseValue(s: HeaderState, value: int): (r: Paging)
    ensures r.Refused? <==> (if MonthMode(s) then MonthGuardRefuses(s, value) else YearGuardRefuses(s, value))
    ensures r.Paged? ==> r.next.(date := s.date) == s
    ensures r.Paged? ==> r.selected == (if s.onlyMonthPicker then Some(s.selectedDate) else None)
    ensures r.Paged? && MonthMode(s) ==> r.next.date.day == 1
    ensures r.Paged? && MonthMode(s) && s.onlyMonthPicker ==>
      r.next.date == s.date.(year := s.date.year + value, day := 1)
    ensures r.Paged? && MonthMode(s) && !s.onlyMonthPicker ==>
      MonthCount(r.next.date) == MonthCount(s.date) + value
    ensures r.Paged? && MonthMode(s) && !s.onlyMonthPicker ==>
      r.next.date.(year := s.date.year, monthIndex := s.date.monthIndex, day := s.date.day) == s.date
    ensures r.Paged? && !MonthMode(s) ==> r.next.date.(year := s.date.year) == s.date
    ensures r.Paged? && !MonthMode(s) && value < 0 && s.minDate.Some? ==>
      r.next.date.year >= s.minDate.value.year
    ensures r.Paged? && !MonthMode(s) && value > 0 && s.maxDate.Some? ==>
      r.next.date.year <= s.maxDate.value.year
  {
    var date := s.date;
    var selected := if s.onlyMonthPicker then Some(s.selectedDate) else None;
    if MonthMode(s) then
      if MonthGuardRefuses(s, value) then Refused
      else
        var first := ToFirstOfMonth(date);
        var moved := if s.onlyMonthPicker then first.(year := first.year + value) else AddMonths(first, value);
        Paged(selected, s.(date := moved))
    else
      if YearGuardRefuses(s, value) then Refused
      else
        var year := date.year + value * 12;
        var year := if value < 0 && s.minDate.Some? && year < s.minDate.value.year then s.minDate.value.year else year;
        var year := if value > 0 && s.maxDate.Some? && year > s.maxDate.value.year then s.maxDate.value.year else year;
        Paged(selected, s.(date := date.(year := year)))
  }

  /** The cursor's month lies within the bounds (months, ignoring days). */
  predicate InMonthBounds(s: HeaderState) {
    && (s.minDate.Some? ==> MonthCount(s.minDate.value) <= MonthCount(s.date))
    && (s.maxDate.Some? ==> MonthCount(s.date) <= MonthCount(s.maxDate.value))
  }

  /** The cursor's year lies within the bounds' years. */
  predicate InYearBounds(s: HeaderState) {
    && (s.minDate.Some? ==> s.minDate.value.year <= s.date.year)
    && (s.maxDate.Some? ==> s.date.year <= s.maxDate.value.year)
  }

  /** Month paging by one arrow click from a cursor within the bounds: it
      is refused exactly when the cursor already sits on the bound's month
      in the direction of travel; otherwise it moves one month and stays
      within the bounds. */
  lemma MonthPagingKeepsBounds(s: HeaderState, value: int)
    requires MonthMode(s) && !s.onlyMonthPicker && (value == 1 || value == -1)
    requires InMonthBounds(s)
    ensures IncreaseValue(s, value).Refused? <==>
      || (value == -1 && s.minDate.Some? && MonthCount(s.date) == MonthCount(s.minDate.value))
      || (value == 1 && s.maxDate.Some? && MonthCount(s.date) == MonthCount(s.maxDate.value))
    ensures IncreaseValue(s, value).Paged? ==> InMonthBounds(IncreaseValue(s, value).next)
  {
    if s.minDate.Some? && MonthCount(s.date) == MonthCount(s.minDate.value) {
      MonthCountDetermines(s.date, s.minDate.value);
    }
    if s.maxDate.Some? && MonthCount(s.date) == MonthCount(s.maxDate.value) {
      MonthCountDetermines(s.date, s.maxDate.value);
    }
  }

  /** Year-picker paging by one arrow click from a cursor within the
      bounds' years: refused exactly on the bound year in the direction of
      travel; otherwise a page of twelve years clamped to the bound, which
      keeps the cursor within the bounds' years. */
  lemma YearPagingKeepsBounds(s: HeaderState, value: int)
    requires !MonthMode(s) && (value == 1 || value == -1)
    requires InYearBounds(s)
    ensures IncreaseValue(s, value).Refused? <==>
      || (value == -1 && s.minDate.Some? && s.date.year == s.minDate.value.year)
      || (value == 1 && s.maxDate.Some? && s.date.year == s.maxDate.value.year)
    ensures IncreaseValue(s, value).Paged? ==>
      && InYearBounds(IncreaseValue(s, value).next)
      && IncreaseValue(s, value).next.date.year ==
           (if value == -1 then
              (if s.minDate.Some? && s.date.year - 12 < s.minDate.value.year then s.minDate.value.year else s.date.year - 12)
            else
              (if s.maxDate.Some? && s.date.year + 12 > s.maxDate.value.year then s.maxDate.value.year else s.date.year + 12))
  {
  }

  /* ---------------------------------------------------------------------
     Month paging with onlyMonthPicker: as written and as intended
     --------------------------------------------------------------------- */

  /** With `onlyMonthPicker` the arrows move the cursor by a year, but the
      guards compare month numbers as if it moved by a month. A cursor in
      July of the minimum's year, with the minimum in June, is paged back to
      the previous year, which lies wholly before the minimum. */
  lemma OnlyMonthPickerLeavesYearBounds()
    ensures
      var min := DateObject(2019, 5, 1, true, [], []);
      var s := HeaderState(DateObject(2019, 6, 1, true, [], []), NoDate,
                           false, false, true, false, Some(min), None);
      && InYearBounds(s)
      && IncreaseValue(s, -1).Paged?
      && IncreaseValue(s, -1).next.date.year < min.year
  {
  }

  /** The paging the arrows evidently intend: with `onlyMonthPicker` in
      month mode the guards compare years, since that is what moves;
      everything else is `IncreaseValue`. */
  function IncreaseValueIntended(s: HeaderState, value: int): (r: Paging)
    ensures !(MonthMode(s) && s.onlyMonthPicker) ==> r == IncreaseValue(s, value)
  {
    if MonthMode(s) && s.onlyMonthPicker then
      if YearGuardRefuses(s, value) then Refused
      else
        var first := ToFirstOfMonth(s.date);
        Paged(Some(s.selectedDate), s.(date := first.(year := first.year + value)))
    else IncreaseValue(s, value)
  }

  /** With the year guards, year paging in month mode never leaves the
      bounds' years, for any step, and is refused only when it would. */
  lemma IntendedKeepsYearBounds(s: HeaderState, value: int)
    requires MonthMode(s) && s.onlyMonthPicker && InYearBounds(s)
    ensures IncreaseValueIntended(s, value).Refused? <==>
      || (s.minDate.Some? && s.date.year + value < s.minDate.value.year)
      || (s.maxDate.Some? && s.date.year + value > s.maxDate.value.year)
    ensures IncreaseValueIntended(s, value).Paged? ==>
      && InYearBounds(IncreaseValueIntended(s, value).next)
      && IncreaseValueIntended(s, value).next.date == s.date.(year := s.date.year + value, day := 1)
  {
  }

  /* ---------------------------------------------------------------------
     Picker switches
     --------------------------------------------------------------------- */

  datatype Picker = MonthPicker | YearPicker

  function Showing(s: HeaderState, p: Picker): bool {
    match p
    case MonthPicker => s.mustShowMonthPicker
    case YearPicker => s.mustShowYearPicker
  }

  function Other(p: Picker): Picker {
    match p
    case MonthPicker => YearPicker
    case YearPicker => MonthPicker
  }

  /** `toggle(picker)`: flips one picker and closes the other. */
  function Toggle(s: HeaderState, p: Picker): (r: HeaderState)
    ensures Showing(r, p) == !Showing(s, p)
    ensures !Showing(r, Other(p))
    ensures !(r.mustShowMonthPicker && r.mustShowYearPicker)
    ensures r.(mustShowMonthPicker := s.mustShowMonthPicker, mustShowYearPicker := s.mustShowYearPicker) == s
  {
    var flipped := !Showing(s, p);
    s.(mustShowMonthPicker := p == MonthPicker && flipped,
       mustShowYearPicker := p == YearPicker && flipped)
  }

  /** Toggling the same picker twice restores the state when the other
      picker was closed, and closes both when only the other was open. */
  lemma ToggleTwice(s: HeaderState, p: Picker)
    ensures !Showing(s, Other(p)) ==> Toggle(Toggle(s, p), p) == s
    ensures Showing(s, Other(p)) && !Showing(s, p) ==>
      Toggle(Toggle(s, p), p) == s.(mustShowMonthPicker := false, mustShowYearPicker := false)
  {
  }

  /** A series of clicks on the picker switches. */
  function ToggleAll(s: HeaderState, ps: seq<Picker>): HeaderState
    decreases |ps|
  {
    if |ps| == 0 then s else ToggleAll(Toggle(s, ps[0]), ps[1..])
  }

  /** After any non-empty series of clicks the two pickers are never both
      shown, and nothing but the two flags has changed. */
  lemma {:induction false} ToggleAllExclusive(s: HeaderState, ps: seq<Picker>)
    requires |ps| > 0 || !(s.mustShowMonthPicker && s.mustShowYearPicker)
    ensures !(ToggleAll(s, ps).mustShowMonthPicker && ToggleAll(s, ps).mustShowYearPicker)
    ensures ToggleAll(s, ps).(mustShowMonthPicker := s.mustShowMonthPicker,
                              mustShowYearPicker := s.mustShowYearPicker) == s
    decreases |ps|
  {
    if |ps| > 0 {
      ToggleAllExclusive(Toggle(s, ps[0]), ps[1..]);
    }
  }
}

=== FILE: strings.dfy ===
/** String helpers with JavaScript semantics: global literal replacement,
    decimal rendering of integers, and `Array.prototype.join` over the
    non-empty entries of a list. */
module Strings {

  predicate IsAsciiDigit(c: char) {
    '0' <= c <= '9'
  }

  /** The ASCII character of decimal digit `d`. */
  function AsciiDigit(d: nat): (c: char)
    requires d < 10
    ensures IsAsciiDigit(c)
    ensures c as int - '0' as int == d
  {
    ('0' as int + d) as char
  }

  predicate AllAsciiDigits(s: string) {
    forall i :: 0 <= i < |s| ==> IsAsciiDigit(s[i])
  }

  /* ---------------------------------------------------------------------
     Decimal rendering (`Number.prototype.toString()` for integers)
     --------------------------------------------------------------------- */

  /** Decimal text of `n`, most significant digit first, no leading zeros. */
  function NatToDecimal(n: nat): (r: string)
    ensures |r| >= 1
    ensures AllAsciiDigits(r)
    ensures r[0] == '0' ==> n == 0 && |r| == 1
    decreases n
  {
    if n < 10 then [AsciiDigit(n)]
    else NatToDecimal(n / 10) + [AsciiDigit(n % 10)]
  }

  /** Reads back a string of ASCII digits as a number. */
  function ParseDecimal(s: string): nat
    requires AllAsciiDigits(s)
  {
    if |s| == 0 then 0
    else ParseDecimal(s[..|s| - 1]) * 10 + (s[|s| - 1] as int - '0' as int)
  }

  /** Parsing undoes decimal rendering. */
  lemma {:induction false} DecimalRoundTrip(n: nat)
    ensures ParseDecimal(NatToDecimal(n)) == n
    decreases n
  {
    var r := NatToDecimal(n);
    if n >= 10 {
      DecimalRoundTrip(n / 10);
      assert r[..|r| - 1] == NatToDecimal(n / 10);
    }
  }

  /** `year.toString()`: a leading minus sign for negative values. */
  function IntToDecimal(i: int): (r: string)
    ensures i < 0 <==> (|r| > 0 && r[0] == '-')
    ensures forall k :: 0 < k < |r| ==> IsAsciiDigit(r[k])
    ensures i >= 0 ==> AllAsciiDigits(r) && ParseDecimal(r) == i
    ensures i < 0 ==> AllAsciiDigits(r[1..]) && ParseDecimal(r[1..]) == -i
    ensures var m := if i < 0 then r[1..] else r; |m| >= 1 && (m[0] == '0' ==> |m| == 1)
  {
    if i < 0 then
      var digits := NatToDecimal(-i);
      DecimalRoundTrip(-i);
      assert ("-" + digits)[1..] == digits;
      "-" + digits
    else DecimalRoundTrip(i); NatToDecimal(i)
  }

  /* ---------------------------------------------------------------------
     Global literal replacement (`s.replace(new RegExp(pat, "g"), rep)`)
     --------------------------------------------------------------------- */

  /** An empty pattern matches before every character and at the end. */
  function InsertEverywhere(s: string, rep: string): (r: string)
    ensures |r| == |s| + (|s| + 1) * |rep|
    ensures rep == "" ==> r == s
  {
    if |s| == 0 then rep
    else rep + [s[0]] + InsertEverywhere(s[1..], rep)
  }

  /** Leftmost, non-overlapping replacement of every occurrence of `pat`.
      A non-empty pattern replaced by text no longer than itself never
      lengthens the string, and by text of its own length keeps the length. */
  function ReplaceAll(s: string, pat: string, rep: string): (r: string)
    ensures |pat| > 0 && |rep| <= |pat| ==> |r| <= |s|
    ensures |pat| > 0 && |rep| == |pat| ==> |r| == |s|
    ensures pat == rep ==> r == s
    decreases |s|
  {
    if |pat| == 0 then InsertEverywhere(s, rep)
    else if |s| < |pat| then s
    else if s[..|pat|] == pat then rep + ReplaceAll(s[|pat|..], pat, rep)
    else [s[0]] + ReplaceAll(s[1..], pat, rep)
  }

  /** The character-wise substitution of `c` by `d`. */
  function SubstituteChar(s: string, c: char, d: char): (r: string)
    ensures |r| == |s|
    ensures forall k :: 0 <= k < |s| ==> r[k] == (if s[k] == c then d else s[k])
  {
    if |s| == 0 then []
    else [if s[0] == c then d else s[0]] + SubstituteChar(s[1..], c, d)
  }

  /** Replacing a one-character pattern by a one-character string is a
      character-wise substitution. */
  lemma {:induction false} ReplaceOneChar(s: string, c: char, d: char)
    ensures ReplaceAll(s, [c], [d]) == SubstituteChar(s, c, d)
    decreases |s|
  {
    if |s| >= 1 {
      ReplaceOneChar(s[1..], c, d);
      assert s[..1] == [s[0]];
    }
  }

  /* ---------------------------------------------------------------------
     `list.filter(Boolean).join(sep)`
     --------------------------------------------------------------------- */

  /** The entries of `parts` that are not the empty string, in order. */
  function NonEmpty(parts: seq<string>): (r: seq<string>)
    ensures |r| <= |parts|
    ensures forall k :: 0 <= k < |r| ==> r[k] != ""
    ensures (forall k :: 0 <= k < |parts| ==> parts[k] != "") ==> r == parts
    ensures (forall k :: 0 <= k < |parts| ==> parts[k] == "") <==> r == []
  {
    if |parts| == 0 then []
    else if parts[0] == "" then NonEmpty(parts[1..])
    else [parts[0]] + NonEmpty(parts[1..])
  }

  /** `Array.prototype.join`. */
  function JoinWith(xs: seq<string>, sep: string): string {
    if |xs| == 0 then ""
    else if |xs| == 1 then xs[0]
    else xs[0] + sep + JoinWith(xs[1..], sep)
  }

  function JoinNonEmpty(parts: seq<string>, sep: string): string {
    JoinWith(NonEmpty(parts), sep)
  }

  function SumLengths(xs: seq<string>): nat {
    if |xs| == 0 then 0 else |xs[0]| + SumLengths(xs[1..])
  }

  /** A join is as long as its pieces plus one separator between each
      neighbouring pair. */
  lemma {:induction false} JoinLength(xs: seq<string>, sep: string)
    requires |xs| >= 1
    ensures |JoinWith(xs, sep)| == SumLengths(xs) + (|xs| - 1) * |sep|
    decreases |xs|
  {
    if |xs| > 1 {
      JoinLength(xs[1..], sep);
    }
  }

  /** The joined text is empty exactly when every part is empty. */
  lemma {:induction false} JoinNonEmptyIsEmptyIff(parts: seq<string>, sep: string)
    ensures JoinNonEmpty(parts, sep) == "" <==> forall k :: 0 <= k < |parts| ==> parts[k] == ""
  {
    var xs := NonEmpty(parts);
    if xs != [] {
      JoinLength(xs, sep);
      SumLengthsPositive(xs);
    }
  }

  lemma {:induction false} SumLengthsPositive(xs: seq<string>)
    requires |xs| >= 1 && xs[0] != ""
    ensures SumLengths(xs) >= 1
  {
  }

  /** Empty strings anywhere in the list leave the joined text unchanged. */
  lemma {:induction false} JoinIgnoresEmpty(parts: seq<string>, k: nat, sep: string)
    requires k <= |parts|
    ensures JoinNonEmpty(parts[..k] + [""] + parts[k..], sep) == JoinNonEmpty(parts, sep)
  {
    NonEmptyIgnoresEmpty(parts, k);
  }

  lemma {:induction false} NonEmptyIgnoresEmpty(parts: seq<string>, k: nat)
    requires k <= |parts|
    ensures NonEmpty(parts[..k] + [""] + parts[k..]) == NonEmpty(parts)
    decreases k
  {
    var ps := parts[..k] + [""] + parts[k..];
    if k == 0 {
      assert ps[1..] == parts;
    } else {
      NonEmptyIgnoresEmpty(parts[1..], k - 1);
      assert ps[0] == parts[0];
      assert ps[1..] == parts[1..][..k - 1] + [""] + parts[1..][k - 1..];
    }
  }
}

=== FILE: wrappers.dfy ===
/** Optional values: the model's stand-in for JavaScript's `undefined`. */
module Wrappers {

  datatype Option<+T> = None | Some(value: T)
}
